=== FILE: README.md ===
# Locking project command runner (Atlantis)

A Dafny model of the locking layer that Atlantis wraps around per-project
`plan`, `policy_check` and `apply` commands, reconstructed from the behaviour
that `server/projects/runners/locking_test.go` pins down.

- **Project lock table** (`LockStore`): an immutable map from
  (repository full name, repo-relative directory, workspace) to the lock
  record of the owning pull. `TryLock` grants when the key is free or already
  held by the same pull, and then replaces the record. Otherwise it leaves the
  table alone and reports the current owner. Each step is one indivisible
  read-check-write.
- **Project locker** (`ProjectLocker`): turns a lock-table denial into the
  exact conflict message. The message names the blocking pull's markdown link
  twice. A grant carries the lock's id. The VCS markdown-link lookup is a
  function parameter that may fail.
- **Working-directory locker** (`WorkingDirLocker`): an in-memory set of
  claimed (repository, pull number, workspace) keys. A claim on a held key is
  refused at once.
- **Locking runner** (`LockingRunner`): `Plan` and `PolicyCheck` take the
  project lock. On a grant they run the wrapped runner and stamp
  `GenerateLockURL(lockKey)` on the success payload. On a refusal they return
  the conflict message as `Failure`, with no payload. `Apply` takes only the
  working-directory claim and releases it on every path. The wrapped runner is
  a record of three total functions. Every entry point also returns the log of
  wrapped-runner calls it made, so "invoked exactly once" and "never invoked"
  are statements about that log. `RunRequests` threads one table through any
  sequence of plans and policy checks from any runners. It is what the tests'
  two-pull races do, generalised to any number of commands.
- **Lock URL generator** (`LockUrl`): the tests' generator, `"https://" + id`.
- **Test scenarios** (`Scenarios`): the tests' concrete runs stated as lemmas.

Each entry point comes in two forms. `PlanWith`, `PolicyCheckWith` and
`ApplyWith` take the locker's answer as an input, which is what the tests do
with mocked lockers. `Plan`, `PolicyCheck` and `Apply` thread the real lock
table or claim set.

## Model

| member | source | states |
|---|---|---|
| LockStore.TryLock | server/projects/runners/locking_test.go:112-141 | granted exactly when the key is free or owned by the requesting pull, and the pull then owns it; a denial leaves the table unchanged and reports the current owner's record; other keys never change; records stay filed under their own key |
| LockStore.RunLocks | server/projects/runners/locking_test.go:112-141 | a history of attempts yields one outcome per attempt, never loses a held key, and keeps records filed under their own key |
| LockStore.FirstRequester | server/projects/runners/locking_test.go:112-141 | the first attempt on a key exists exactly when some attempt targets that key, and its pull is the pull of the earliest such attempt: no attempt before it targets the key |
| LockStore.FinalOwner | server/projects/runners/locking_test.go:132-141 | after any history, a key is owned by its prior owner or else by the first pull that asked for it; no later pull ever takes it over |
| LockStore.FirstOutcomeFollowsOwner | server/projects/runners/locking_test.go:112-141 | the first attempt of a history on a key is granted exactly when it comes from the key's owner, and a denial reports that owner |
| LockStore.OutcomesFollowOwner | server/projects/runners/locking_test.go:112-141 | in any history, an attempt on a key is granted if and only if it comes from the key's owner, and each denial reports that owner |
| LockStore.SingleOwnership | server/projects/runners/locking_test.go:117-141 | two different pulls locking one key in turn are never both granted, and if the first wins the second sees the first as owner |
| LockStore.RelockBySamePull | server/projects/runners/locking_test.go:76-79 | the same pull re-locking its own key is granted again and its new record replaces the old one |
| ProjectLocker.FailureMessage | server/projects/runners/locking_test.go:142 | the conflict message is the fixed text with the blocking pull's link in exactly the two places the text names it |
| ProjectLocker.LinkOf | server/projects/runners/locking_test.go:142 | any link read back from a message regenerates exactly that message |
| ProjectLocker.LinkOfFailureMessage | server/projects/runners/locking_test.go:142 | reading a conflict message back yields the link it was built from |
| ProjectLocker.FailureMessageInjective | server/projects/runners/locking_test.go:142 | different blocking links give different messages |
| ProjectLocker.TryLock | server/projects/runners/locking_test.go:129-141 | granted with the key's id exactly when the project is free or the pull's own, and the table is then the old one with this pull's record filed under the key; any grant carries exactly that id; otherwise the table is unchanged and the refusal's message names the owner's markdown link, or the link lookup's error is returned |
| LockUrl.GenerateLockUrl | server/projects/runners/locking_test.go:307-309 | the URL starts with "https://" and the rest is exactly the lock id |
| LockUrl.LockIdOf | server/projects/runners/locking_test.go:307-309 | any id recovered from a URL regenerates that URL |
| LockUrl.LockIdOfGenerated | server/projects/runners/locking_test.go:307-309 | every generated URL leads back to its lock id |
| LockUrl.GenerateLockUrlInjective | server/projects/runners/locking_test.go:307-309 | distinct lock ids get distinct URLs |
| WorkingDirLocker.TryLock | server/projects/runners/locking_test.go:292-296 | a claim on (repo, pull number, workspace) succeeds exactly when the key is unclaimed; the key is claimed afterwards and no other key changes; a refusal reports the key as locked |
| WorkingDirLocker.Release | server/projects/runners/locking_test.go:292-296 | releasing frees the key and leaves every other claim as it was |
| WorkingDirLocker.ReleaseUndoesClaim | server/projects/runners/locking_test.go:292-296 | claiming a free key and releasing it restores the claim set |
| WorkingDirLocker.ClaimedKeyStays | server/projects/runners/locking_test.go:292-296 | a claimed key that nobody releases stays claimed through any sequence of claims and releases |
| WorkingDirLocker.RunDirOps | server/projects/runners/locking_test.go:292-296 | a run of claims and releases logs one entry per operation: a granted-or-refused verdict exactly for the claims, nothing for the releases |
| WorkingDirLocker.ClaimedKeyExcludes | server/projects/runners/locking_test.go:292-296 | while a key stays claimed, every further claim on it is logged as refused |
| LockingRunner.Rejected | server/projects/runners/locking_test.go:139-142 | a turned-away command echoes the context's routing fields, carries exactly the given failure text and error, and no success payload of any kind |
| LockingRunner.WithPlanLockUrl | server/projects/runners/locking_test.go:64-66 | only the plan payload's lock URL changes, and only when there is a plan payload |
| LockingRunner.WithPolicyCheckLockUrl | server/projects/runners/locking_test.go:226-238 | only the policy-check payload's lock URL changes, and only when there is such a payload |
| LockingRunner.PlanWith | server/projects/runners/locking_test.go:43-66 | the wrapped plan runs once if and only if the lock was granted, and its result comes back unchanged except that the plan payload, exactly when the wrapped plan returned one, is that payload with the generated lock URL; a refusal or locker error returns the rejected result carrying the message or the error, without a payload and without running it |
| LockingRunner.PolicyCheckWith | server/projects/runners/locking_test.go:167-190 | the same gate for policy checks: run once if and only if granted, each payload is present exactly when the wrapped policy check returned it and equals it with the lock URL set; nothing else changed |
| LockingRunner.ApplyWith | server/projects/runners/locking_test.go:292-301 | the wrapped apply runs once if and only if the working-directory claim was granted, and its result comes back unchanged; a refused claim gives back the rejected apply result: the context's routing fields, that error, no failure text, no payload and an empty apply output |
| LockingRunner.Plan | server/projects/runners/locking_test.go:90-142 | the table moves exactly as one lock-table attempt for the context's lock, and the wrapped plan runs exactly when that attempt is granted, i.e. the project is free or the pull's own; then only this pull's record changes, the plan payload is present exactly when the wrapped plan returned one and is that payload with the URL of the project's lock id, and the rest of the wrapped result comes back unchanged; otherwise the table is unchanged and the result is the rejected plan result carrying either the conflict message that names the owner's link or the link lookup's error |
| LockingRunner.PolicyCheck | server/projects/runners/locking_test.go:214-266 | the same as Plan for policy checks: on a grant each payload is present exactly when the wrapped policy check returned it and equals it with the lock URL set, nothing else in the wrapped result changes; a refusal is the rejected policy-check result with no payload, carrying the conflict message or the link lookup's error |
| LockingRunner.Step | server/projects/runners/locking_test.go:90-142 | one plan or policy check moves the table as one lock-table attempt and runs its wrapped command exactly when that attempt is granted |
| LockingRunner.RunRequests | server/projects/runners/locking_test.go:90-142 | any sequence of plans and policy checks on one table gives one run per request, and each run calls at most its own wrapped command, once, for its own context |
| LockingRunner.RequestsFollowLocksStore | server/projects/runners/locking_test.go:90-142 | plans and policy checks from any runners on one table leave it exactly as the lock table's history of the same attempts |
| LockingRunner.RequestFollowsLock | server/projects/runners/locking_test.go:90-142 | in any such run, each command runs its wrapped command exactly when its lock-table attempt is granted |
| LockingRunner.RequestRunsIffOwner | server/projects/runners/locking_test.go:90-142 | in any interleaving of plans and policy checks from any runners on one table, a command on a key runs its wrapped command exactly when its pull is the key's owner: the prior owner, or else the first pull that asked |
| LockingRunner.RequestsFinalOwner | server/projects/runners/locking_test.go:214-266 | after any such interleaving each key is held by its prior owner or else by the first pull that asked for it; no later pull takes it over through another runner sharing the table |
| LockingRunner.Apply | server/projects/runners/locking_test.go:270-301 | the wrapped apply runs exactly when the checkout is unclaimed; the claim set afterwards equals the one before on every path; a held checkout yields the rejected apply result: the context's routing fields, the workspace-locked error, no payload and an empty apply output |
| Scenarios.OtherPrMessageExact | server/projects/runners/locking_test.go:142 | with link "other PR" the conflict message is exactly the tests' text |
| Scenarios.OtherPrMessageNamesLink | server/projects/runners/locking_test.go:266 | the tests' expected text reads back as a message naming "other PR" |
| Scenarios.PlanGeneratesLockKeyUrl | server/projects/runners/locking_test.go:43-66 | a granted lock with key "lock-key" makes plan return lock URL "https://lock-key" |
| Scenarios.PolicyCheckGeneratesLockKeyUrl | server/projects/runners/locking_test.go:167-190 | a granted lock with key "lock-key" makes policy check return plan lock URL "https://lock-key" |
| Scenarios.PreventPlanningOnLockedProjects | server/projects/runners/locking_test.go:90-142 | from an empty table pull #1 plans successfully with one wrapped call; pull #2 on the same table, with a fresh wrapped runner, gets no payload, no wrapped call and the exact message |
| Scenarios.PreventPolicyCheckingOnLockedProjects | server/projects/runners/locking_test.go:214-266 | the same race for policy checks |
| Scenarios.ApplyWorkingDirLocked | server/projects/runners/locking_test.go:292-301 | a locker refusing with "workspace dir is locked" makes apply return that error, an empty apply output and no wrapped call |

## Left out

- Persistence: BoltDB, its on-disk format and store I/O faults are not modelled. The table is an in-memory map, and a step cannot fail.
- Unlock, unlock-by-pull, lock listing and lock timestamps are not modelled. None of them appear in the test file.
- Concurrency is not modelled: goroutine races and the mutex inside the working-directory locker. Each step is one indivisible transition, which is the guarantee the mutex and the store transaction provide.
- The wrapped command runner is not modelled. It is a parameter: three total functions from context to result.
- The VCS client's `MarkdownPullLink` is a parameter that returns a link or an error.
- ProjectLocker.TryLock: when the blocking pull's link lookup fails, the lookup's error is returned and no conflict message is built. A fallback that names the blocking pull by its number is not modelled. The locker's own source is not part of this model, and the tests never make the lookup fail.
- Logging and the mocking machinery are not modelled. A call log stands in for call verification.
- Only the tests' lock URL generator is modelled. The production generator is not part of this model.
- ProjectLocker.LockId: the text form of a lock key (`repo/dir/workspace`) is a modelling choice. The real encoding is not part of this model. Only its use as the URL argument matters here. It is not injective: keys ("a/b", "c", "w") and ("a", "b/c", "w") both give "a/b/c/w", so distinct URLs are promised only for distinct lock ids.
- LockingRunner.WithPolicyCheckLockUrl: the tests only pin the plan payload's URL after a policy check. Stamping the policy-check payload too is a modelling choice.
- WorkingDirLocker.TryLock: the default locker's error wording is not part of this model. The refusal is the structured error `WorkspaceLocked(repo, pull, workspace)`. The tests' mocked locker uses the text error "workspace dir is locked".
- A pull is modelled as (base repository, number) only. Its base branch, author and other fields are not modelled, and "same pull" compares exactly these two fields.

=== FILE: lock_store.dfy ===
/**
 The project lock table: a map from (repository, directory, workspace) to the
 lock record of the pull that owns it. The durable store behind it is reduced
 to an immutable map threaded through pure step functions; one step is one
 indivisible read-check-write transaction.
 */
module LockStore {
  import opened Types

  /** The key a project lock is filed under. */
  datatype LockKey = LockKey(repoFullName: string, path: string, workspace: string)

  type Store = map<LockKey, Lock>

  function KeyOf(l: Lock): LockKey {
    LockKey(l.project.repoFullName, l.project.path, l.workspace)
  }

  /** Every record is filed under the key of its own project and workspace. */
  ghost predicate Valid(s: Store) {
    forall k | k in s :: KeyOf(s[k]) == k
  }

  predicate HeldBy(s: Store, k: LockKey, p: Pull) {
    k in s && s[k].pull == p
  }

  /** Outcome of one lock attempt: the key on success, the blocking record on denial. */
  datatype Outcome = Acquired(key: LockKey) | Denied(current: Lock)

  datatype Attempt = Attempt(store: Store, outcome: Outcome)

  /**
   Grants the lock when its key is free or already owned by the same pull
   (the record is then replaced); otherwise leaves the table untouched and
   reports the current owner.
   */
  function TryLock(s: Store, l: Lock): (r: Attempt)
    ensures r.outcome.Acquired? <==> KeyOf(l) !in s || s[KeyOf(l)].pull == l.pull
    ensures r.outcome.Acquired? ==> r.outcome.key == KeyOf(l)
    ensures HeldBy(r.store, KeyOf(l), l.pull) <==> r.outcome.Acquired?
    ensures r.outcome.Acquired? ==> r.store[KeyOf(l)] == l
    ensures r.outcome.Denied? ==> r.store == s && r.outcome.current == s[KeyOf(l)]
    ensures forall k | k != KeyOf(l) :: (k in r.store <==> k in s) && (k in s ==> r.store[k] == s[k])
    ensures Valid(s) ==> Valid(r.store)
  {
    var k := KeyOf(l);
    if k !in s || s[k].pull == l.pull then Attempt(s[k := l], Acquired(k))
    else Attempt(s, Denied(s[k]))
  }

  /** Applies a sequence of lock attempts in order, collecting their outcomes. */
  function RunLocks(s: Store, ls: seq<Lock>): (r: (Store, seq<Outcome>))
    ensures |r.1| == |ls|
    ensures s.Keys <= r.0.Keys
    ensures Valid(s) ==> Valid(r.0)
    decreases |ls|
  {
    if ls == [] then (s, [])
    else
      var a := TryLock(s, ls[0]);
      var rest := RunLocks(a.store, ls[1..]);
      (rest.0, [a.outcome] + rest.1)
  }

  /** RunLocks on a nonempty history: the first attempt, then the rest from the table it leaves. */
  lemma RunLocksFirst(s: Store, ls: seq<Lock>)
    requires |ls| > 0
    ensures var a := TryLock(s, ls[0]); var rest := RunLocks(a.store, ls[1..]);
      RunLocks(s, ls).0 == rest.0 && RunLocks(s, ls).1 == [a.outcome] + rest.1
  {
  }

  /** The pull of the earliest attempt on key k, if any. */
  function FirstRequester(ls: seq<Lock>, k: LockKey): (r: Option<Pull>)
    ensures r.None? <==> forall i | 0 <= i < |ls| :: KeyOf(ls[i]) != k
    ensures r.Some? ==> exists i | 0 <= i < |ls| ::
      KeyOf(ls[i]) == k && ls[i].pull == r.value && forall j | 0 <= j < i :: KeyOf(ls[j]) != k
    decreases |ls|
  {
    if ls == [] then None
    else if KeyOf(ls[0]) == k then Some(ls[0].pull)
    else
      var r := FirstRequester(ls[1..], k);
      assert forall i | 1 <= i < |ls| :: ls[i] == ls[1..][i - 1];
      if r.Some? then
        var i :| 0 <= i < |ls[1..]| && KeyOf(ls[1..][i]) == k && ls[1..][i].pull == r.value
          && forall j | 0 <= j < i :: KeyOf(ls[1..][j]) != k;
        assert KeyOf(ls[i + 1]) == k && ls[i + 1].pull == r.value
          && forall j | 0 <= j < i + 1 :: KeyOf(ls[j]) != k;
        r
      else r
  }

  /** Who owns k once all of ls has run: the existing owner, or else the first requester. */
  function Owner(s: Store, ls: seq<Lock>, k: LockKey): Option<Pull> {
    if k in s then Some(s[k].pull) else FirstRequester(ls, k)
  }

  /** One step of RunLocks does not change who will end up owning k. */
  lemma {:induction false} OwnerStep(s: Store, ls: seq<Lock>, k: LockKey)
    requires |ls| > 0
    ensures Owner(TryLock(s, ls[0]).store, ls[1..], k) == Owner(s, ls, k)
  {
    var a := TryLock(s, ls[0]);
    if KeyOf(ls[0]) == k {
      assert k in a.store;
      if k in s {
        assert a.store[k].pull == s[k].pull;
      } else {
        assert a.store[k] == ls[0];
      }
    } else {
      assert (k in a.store <==> k in s) && (k in s ==> a.store[k] == s[k]);
    }
  }

  /**
   Single ownership over a whole history: after any sequence of attempts the
   key is owned by whoever owned it before, or, if it was free, by the first
   pull that asked for it. No later pull ever takes it over.
   */
  lemma {:induction false} FinalOwner(s: Store, ls: seq<Lock>, k: LockKey)
    ensures var f := RunLocks(s, ls).0;
      (k in f <==> Owner(s, ls, k).Some?) && (k in f ==> f[k].pull == Owner(s, ls, k).value)
    decreases |ls|
  {
    if ls != [] {
      var a := TryLock(s, ls[0]);
      OwnerStep(s, ls, k);
      FinalOwner(a.store, ls[1..], k);
    }
  }

  /** The first attempt of a history on k is granted exactly when it comes from k's owner. */
  lemma FirstOutcomeFollowsOwner(s: Store, ls: seq<Lock>, k: LockKey)
    requires |ls| > 0 && KeyOf(ls[0]) == k
    ensures Owner(s, ls, k).Some?
    ensures var o := TryLock(s, ls[0]).outcome;
      (o.Acquired? <==> ls[0].pull == Owner(s, ls, k).value)
      && (o.Denied? ==> o.current.pull == Owner(s, ls, k).value)
  {
    if k !in s {
      assert FirstRequester(ls, k) == Some(ls[0].pull);
    }
  }

  /**
   Every attempt on k in a history is granted exactly when it comes from the
   pull that owns k, and a denied attempt reports that owner.
   */
  lemma {:induction false} OutcomesFollowOwner(s: Store, ls: seq<Lock>, k: LockKey, i: nat)
    requires i < |ls| && KeyOf(ls[i]) == k
    ensures Owner(s, ls, k).Some?
    ensures var o := RunLocks(s, ls).1[i];
      (o.Acquired? <==> ls[i].pull == Owner(s, ls, k).value)
      && (o.Denied? ==> o.current.pull == Owner(s, ls, k).value)
    decreases i
  {
    var a := TryLock(s, ls[0]);
    var rest := RunLocks(a.store, ls[1..]);
    RunLocksFirst(s, ls);
    OwnerStep(s, ls, k);
    if i == 0 {
      FirstOutcomeFollowsOwner(s, ls, k);
    } else {
      assert ls[1..][i - 1] == ls[i];
      OutcomesFollowOwner(a.store, ls[1..], k, i - 1);
      assert RunLocks(s, ls).1[i] == rest.1[i - 1];
    }
  }

  /** Two different pulls locking the same key one after the other: the second is turned away with the first as owner. */
  lemma SingleOwnership(s: Store, l1: Lock, l2: Lock)
    requires KeyOf(l1) == KeyOf(l2) && l1.pull != l2.pull
    ensures var a1 := TryLock(s, l1); var a2 := TryLock(a1.store, l2);
      !(a1.outcome.Acquired? && a2.outcome.Acquired?)
      && (a1.outcome.Acquired? ==> a2.outcome.Denied? && a2.outcome.current.pull == l1.pull)
  {
  }

  /** Locking twice for the same pull succeeds both times; the second record replaces the first. */
  lemma RelockBySamePull(s: Store, l1: Lock, l2: Lock)
    requires KeyOf(l1) == KeyOf(l2) && l1.pull == l2.pull
    requires TryLock(s, l1).outcome.Acquired?
    ensures var a1 := TryLock(s, l1); var a2 := TryLock(a1.store, l2);
      a2.outcome.Acquired? && a2.store == s[KeyOf(l1) := l2]
  {
  }
}

=== FILE: lock_url.dfy ===
/**
 The lock URL generator used with the locking runner in its tests: a lock id
 becomes a link by prefixing the https scheme.
 */
module LockUrl {
  import opened Types

  const Scheme := "https://"

  /** The URL under which a human can view or release the lock with this id. */
  function GenerateLockUrl(lockId: string): (url: string)
    ensures |url| == |Scheme| + |lockId|
    ensures url[..|Scheme|] == Scheme
    ensures url[|Scheme|..] == lockId
  {
    Scheme + lockId
  }

  /** Recovers the lock id from a generated URL; None for any other string. */
  function LockIdOf(url: string): (r: Option<string>)
    ensures r.Some? ==> GenerateLockUrl(r.value) == url
  {
    if |url| >= |Scheme| && url[..|Scheme|] == Scheme then
      var id := url[|Scheme|..];
      assert url == Scheme + id;
      Some(id)
    else None
  }

  /** Every generated URL leads back to the id it was made from. */
  lemma LockIdOfGenerated(lockId: string)
    ensures LockIdOf(GenerateLockUrl(lockId)) == Some(lockId)
  {
  }

  /** Distinct lock ids get distinct URLs. */
  lemma GenerateLockUrlInjective(a: string, b: string)
    requires GenerateLockUrl(a) == GenerateLockUrl(b)
    ensures a == b
  {
    LockIdOfGenerated(a);
    LockIdOfGenerated(b);
  }
}

=== FILE: locking_runner.dfy ===
/**
 The locking project command runner. Plan and policy-check first take the
 project lock and, once it is granted, run the wrapped runner and stamp the
 lock's URL on its success payload; apply takes only the working-directory
 claim and releases it again when the wrapped apply is done.

 The wrapped runner, the lock URL generator and the VCS markdown-link lookup
 are parameters. Each entry point also returns the log of wrapped-runner
 calls it made, so "called exactly once" and "never called" are statements
 about that log.
 */
module LockingRunner {
  import opened Types
  import LockStore
  import ProjectLocker
  import WorkingDirLocker

  datatype Command = PlanCommand | PolicyCheckCommand | ApplyCommand

  datatype PlanSuccess = PlanSuccess(lockUrl: string, terraformOutput: string)

  datatype PolicyCheckSuccess = PolicyCheckSuccess(lockUrl: string, policyCheckOutput: string)

  /** What one command did to one project; at most one payload is normally set. */
  datatype ProjectResult = ProjectResult(
    command: Command,
    repoRelDir: string,
    workspace: string,
    projectName: string,
    planSuccess: Option<PlanSuccess>,
    policyCheckSuccess: Option<PolicyCheckSuccess>,
    applySuccess: string,
    failure: string,
    error: Option<Error>)

  /** The request a command runs for. */
  datatype Context = Context(pull: Pull, user: User, workspace: string, repoRelDir: string, projectName: string)

  function ProjectOf(ctx: Context): Project {
    Project(ctx.pull.baseRepo, ctx.repoRelDir)
  }

  /** The wrapped runner that actually executes commands. */
  datatype InnerRunner = InnerRunner(
    plan: Context -> ProjectResult,
    policyCheck: Context -> ProjectResult,
    apply: Context -> ProjectResult)

  datatype Call = CalledPlan(ctx: Context) | CalledPolicyCheck(ctx: Context) | CalledApply(ctx: Context)

  /** A command's result together with the calls it made into the wrapped runner. */
  datatype Run = Run(result: ProjectResult, calls: seq<Call>)

  /** The result returned when a command is turned away before the wrapped runner runs. */
  function Rejected(ctx: Context, cmd: Command, failure: string, error: Option<Error>): (r: ProjectResult)
    ensures r.command == cmd && r.repoRelDir == ctx.repoRelDir && r.workspace == ctx.workspace
    ensures r.projectName == ctx.projectName
    ensures r.planSuccess.None? && r.policyCheckSuccess.None? && r.applySuccess == ""
    ensures r.failure == failure && r.error == error
  {
    ProjectResult(cmd, ctx.repoRelDir, ctx.workspace, ctx.projectName, None, None, "", failure, error)
  }

  /** Sets the plan payload's lock URL when there is a plan payload; nothing else changes. */
  function WithPlanLockUrl(r: ProjectResult, url: string): (d: ProjectResult)
    ensures d.planSuccess.Some? <==> r.planSuccess.Some?
    ensures d.planSuccess.Some? ==>
      d.planSuccess.value == r.planSuccess.value.(lockUrl := url)
    ensures d.(planSuccess := r.planSuccess) == r
  {
    match r.planSuccess
    case None => r
    case Some(p) => r.(planSuccess := Some(p.(lockUrl := url)))
  }

  /** Sets the policy-check payload's lock URL when there is one; nothing else changes. */
  function WithPolicyCheckLockUrl(r: ProjectResult, url: string): (d: ProjectResult)
    ensures d.policyCheckSuccess.Some? <==> r.policyCheckSuccess.Some?
    ensures d.policyCheckSuccess.Some? ==>
      d.policyCheckSuccess.value == r.policyCheckSuccess.value.(lockUrl := url)
    ensures d.(policyCheckSuccess := r.policyCheckSuccess) == r
  {
    match r.policyCheckSuccess
    case None => r
    case Some(p) => r.(policyCheckSuccess := Some(p.(lockUrl := url)))
  }

  /**
   Plan, given the project locker's answer: a refusal or a locker error
   returns without running the wrapped plan; a grant runs it once and stamps
   the lock URL on its plan payload.
   */
  function PlanWith(ctx: Context, attempt: Result<ProjectLocker.Response>, inner: InnerRunner,
                    lockUrl: string -> string): (r: Run)
    ensures r.calls == [] || r.calls == [CalledPlan(ctx)]
    ensures r.calls == [CalledPlan(ctx)] <==> attempt.Ok? && attempt.value.Granted?
    ensures attempt.Ok? && attempt.value.Granted? ==>
      var p := inner.plan(ctx).planSuccess;
      && r.result.planSuccess == (if p.Some? then Some(p.value.(lockUrl := lockUrl(attempt.value.lockKey))) else None)
      && r.result.(planSuccess := p) == inner.plan(ctx)
    ensures attempt.Ok? && attempt.value.Refused? ==>
      r.result == Rejected(ctx, PlanCommand, attempt.value.reason, None)
    ensures attempt.Err? ==> r.result == Rejected(ctx, PlanCommand, "", Some(attempt.error))
  {
    match attempt
    case Err(e) => Run(Rejected(ctx, PlanCommand, "", Some(e)), [])
    case Ok(Refused(reason)) => Run(Rejected(ctx, PlanCommand, reason, None), [])
    case Ok(Granted(key)) => Run(WithPlanLockUrl(inner.plan(ctx), lockUrl(key)), [CalledPlan(ctx)])
  }

  /**
   Policy check, given the project locker's answer; the same gate as plan. On
   a grant the lock URL is stamped on whichever success payload the wrapped
   policy check returned.
   */
  function PolicyCheckWith(ctx: Context, attempt: Result<ProjectLocker.Response>, inner: InnerRunner,
                           lockUrl: string -> string): (r: Run)
    ensures r.calls == [] || r.calls == [CalledPolicyCheck(ctx)]
    ensures r.calls == [CalledPolicyCheck(ctx)] <==> attempt.Ok? && attempt.value.Granted?
    ensures attempt.Ok? && attempt.value.Granted? ==>
      var url := lockUrl(attempt.value.lockKey);
      var p := inner.policyCheck(ctx).planSuccess;
      var q := inner.policyCheck(ctx).policyCheckSuccess;
      && r.result.planSuccess == (if p.Some? then Some(p.value.(lockUrl := url)) else None)
      && r.result.policyCheckSuccess == (if q.Some? then Some(q.value.(lockUrl := url)) else None)
      && r.result.(planSuccess := p, policyCheckSuccess := q) == inner.policyCheck(ctx)
    ensures attempt.Ok? && attempt.value.Refused? ==>
      r.result == Rejected(ctx, PolicyCheckCommand, attempt.value.reason, None)
    ensures attempt.Err? ==> r.result == Rejected(ctx, PolicyCheckCommand, "", Some(attempt.error))
  {
    match attempt
    case Err(e) => Run(Rejected(ctx, PolicyCheckCommand, "", Some(e)), [])
    case Ok(Refused(reason)) => Run(Rejected(ctx, PolicyCheckCommand, reason, None), [])
    case Ok(Granted(key)) =>
      var url := lockUrl(key);
      Run(WithPolicyCheckLockUrl(WithPlanLockUrl(inner.policyCheck(ctx), url), url), [CalledPolicyCheck(ctx)])
  }

  /**
   Apply, given the working-directory locker's answer (None: claim granted):
   a refused claim returns its error with no apply output and the wrapped
   apply never runs; a granted claim runs it once and returns its result
   unchanged.
   */
  function ApplyWith(ctx: Context, dirError: Option<Error>, inner: InnerRunner): (r: Run)
    ensures r.calls == [] || r.calls == [CalledApply(ctx)]
    ensures r.calls == [CalledApply(ctx)] <==> dirError.None?
    ensures dirError.None? ==> r.result == inner.apply(ctx)
    ensures dirError.Some? ==>
      && r.result.error == dirError
      && r.result.applySuccess == ""
      && r.result.command == ApplyCommand
      && r.result.failure == ""
      && r.result == Rejected(ctx, ApplyCommand, "", dirError)
  {
    match dirError
    case Some(e) => Run(Rejected(ctx, ApplyCommand, "", Some(e)), [])
    case None => Run(inner.apply(ctx), [CalledApply(ctx)])
  }

  /** The project lock key a context's plan or policy check asks for. */
  function LockKeyOf(ctx: Context): LockStore.LockKey {
    LockStore.LockKey(ctx.pull.baseRepo, ctx.repoRelDir, ctx.workspace)
  }

  /** The project lock record a context's plan or policy check files. */
  function LockOf(ctx: Context): (l: Lock)
    ensures LockStore.KeyOf(l) == LockKeyOf(ctx) && l.pull == ctx.pull && l.user == ctx.user
  {
    Lock(ProjectOf(ctx), ctx.workspace, ctx.pull, ctx.user)
  }

  /**
   Plan against the shared project lock table. The wrapped plan runs exactly
   when the project is free or already this pull's, and the pull then owns it;
   otherwise the table is unchanged and no plan payload is returned. The table
   moves exactly as one lock-table attempt for this context's lock.
   */
  function Plan(s: LockStore.Store, ctx: Context, inner: InnerRunner, lockUrl: string -> string,
                markdownLink: Pull -> Result<string>): (r: (LockStore.Store, Run))
    ensures r.0 == LockStore.TryLock(s, LockOf(ctx)).store
    ensures r.1.calls != [] <==> LockStore.TryLock(s, LockOf(ctx)).outcome.Acquired?
    ensures var k := LockKeyOf(ctx);
      && ((r.1.calls == [CalledPlan(ctx)]) <==> k !in s || s[k].pull == ctx.pull)
      && (r.1.calls == [CalledPlan(ctx)] ==>
            && LockStore.HeldBy(r.0, k, ctx.pull)
            && r.0 == s[k := LockOf(ctx)]
            && var p := inner.plan(ctx).planSuccess;
            && r.1.result.planSuccess == (if p.Some? then Some(p.value.(lockUrl := lockUrl(ProjectLocker.LockId(k)))) else None)
            && r.1.result.(planSuccess := p) == inner.plan(ctx))
      && (r.1.calls == [] ==>
            && r.0 == s
            && r.1.result.planSuccess.None?
            && (markdownLink(s[k].pull).Ok? ==>
                  && ProjectLocker.LinkOf(r.1.result.failure) == Some(markdownLink(s[k].pull).value)
                  && r.1.result == Rejected(ctx, PlanCommand, ProjectLocker.FailureMessage(markdownLink(s[k].pull).value), None))
            && (markdownLink(s[k].pull).Err? ==>
                  r.1.result == Rejected(ctx, PlanCommand, "", Some(markdownLink(s[k].pull).error))))
  {
    var a := ProjectLocker.TryLock(s, ctx.pull, ctx.user, ctx.workspace, ProjectOf(ctx), markdownLink);
    (a.store, PlanWith(ctx, a.response, inner, lockUrl))
  }

  /** Policy check against the shared project lock table; gated exactly like Plan. */
  function PolicyCheck(s: LockStore.Store, ctx: Context, inner: InnerRunner, lockUrl: string -> string,
                       markdownLink: Pull -> Result<string>): (r: (LockStore.Store, Run))
    ensures r.0 == LockStore.TryLock(s, LockOf(ctx)).store
    ensures r.1.calls != [] <==> LockStore.TryLock(s, LockOf(ctx)).outcome.Acquired?
    ensures var k := LockKeyOf(ctx);
      && ((r.1.calls == [CalledPolicyCheck(ctx)]) <==> k !in s || s[k].pull == ctx.pull)
      && (r.1.calls == [CalledPolicyCheck(ctx)] ==>
            && LockStore.HeldBy(r.0, k, ctx.pull)
            && r.0 == s[k := LockOf(ctx)]
            && var url := lockUrl(ProjectLocker.LockId(k));
            && var p := inner.policyCheck(ctx).planSuccess;
            && var q := inner.policyCheck(ctx).policyCheckSuccess;
            && r.1.result.planSuccess == (if p.Some? then Some(p.value.(lockUrl := url)) else None)
            && r.1.result.policyCheckSuccess == (if q.Some? then Some(q.value.(lockUrl := url)) else None)
            && r.1.result.(planSuccess := p, policyCheckSuccess := q) == inner.policyCheck(ctx))
      && (r.1.calls == [] ==>
            && r.0 == s
            && r.1.result.policyCheckSuccess.None?
            && r.1.result.planSuccess.None?
            && (markdownLink(s[k].pull).Ok? ==>
                  && ProjectLocker.LinkOf(r.1.result.failure) == Some(markdownLink(s[k].pull).value)
                  && r.1.result == Rejected(ctx, PolicyCheckCommand, ProjectLocker.FailureMessage(markdownLink(s[k].pull).value), None))
            && (markdownLink(s[k].pull).Err? ==>
                  r.1.result == Rejected(ctx, PolicyCheckCommand, "", Some(markdownLink(s[k].pull).error))))
  {
    var a := ProjectLocker.TryLock(s, ctx.pull, ctx.user, ctx.workspace, ProjectOf(ctx), markdownLink);
    (a.store, PolicyCheckWith(ctx, a.response, inner, lockUrl))
  }

  /** One plan or policy check, with the wrapped runner it would call. */
  datatype Request = PlanRequest(ctx: Context, inner: InnerRunner) | PolicyCheckRequest(ctx: Context, inner: InnerRunner)

  /** The call a request makes into its wrapped runner when it is let through. */
  function CallOf(q: Request): Call {
    match q
    case PlanRequest(ctx, _) => CalledPlan(ctx)
    case PolicyCheckRequest(ctx, _) => CalledPolicyCheck(ctx)
  }

  /** Runs one request against the shared table. */
  function Step(s: LockStore.Store, q: Request, lockUrl: string -> string,
                markdownLink: Pull -> Result<string>): (r: (LockStore.Store, Run))
    ensures r.0 == LockStore.TryLock(s, LockOf(q.ctx)).store
    ensures r.1.calls != [] <==> LockStore.TryLock(s, LockOf(q.ctx)).outcome.Acquired?
    ensures r.1.calls == [] || r.1.calls == [CallOf(q)]
  {
    match q
    case PlanRequest(ctx, inner) => Plan(s, ctx, inner, lockUrl, markdownLink)
    case PolicyCheckRequest(ctx, inner) => PolicyCheck(s, ctx, inner, lockUrl, markdownLink)
  }

  /** The lock records a sequence of requests files, in order. */
  function LocksOf(qs: seq<Request>): (ls: seq<Lock>)
    ensures |ls| == |qs| && forall i | 0 <= i < |qs| :: ls[i] == LockOf(qs[i].ctx)
  {
    seq(|qs|, i requires 0 <= i < |qs| => LockOf(qs[i].ctx))
  }

  /**
   Plans and policy checks from any number of runners, one after another, on
   one shared table. Each request gets its own run, and that run calls at most
   its own wrapped command, once, for its own context.
   */
  function RunRequests(s: LockStore.Store, qs: seq<Request>, lockUrl: string -> string,
                       markdownLink: Pull -> Result<string>): (r: (LockStore.Store, seq<Run>))
    ensures |r.1| == |qs|
    ensures forall i | 0 <= i < |qs| :: r.1[i].calls == [] || r.1[i].calls == [CallOf(qs[i])]
    decreases |qs|
  {
    if qs == [] then (s, [])
    else
      var a := Step(s, qs[0], lockUrl, markdownLink);
      var rest := RunRequests(a.0, qs[1..], lockUrl, markdownLink);
      assert forall i | 1 <= i < |qs| :: qs[i] == qs[1..][i - 1];
      (rest.0, [a.1] + rest.1)
  }

  /** The runners move the shared table exactly as the lock table moves under the same attempts. */
  lemma {:induction false} RequestsFollowLocksStore(s: LockStore.Store, qs: seq<Request>, lockUrl: string -> string,
                                                   markdownLink: Pull -> Result<string>)
    ensures RunRequests(s, qs, lockUrl, markdownLink).0 == LockStore.RunLocks(s, LocksOf(qs)).0
    decreases |qs|
  {
    if qs != [] {
      var a := Step(s, qs[0], lockUrl, markdownLink);
      var ls := LocksOf(qs);
      assert ls[1..] == LocksOf(qs[1..]);
      LockStore.RunLocksFirst(s, ls);
      RequestsFollowLocksStore(a.0, qs[1..], lockUrl, markdownLink);
    }
  }

  /** Each request runs its wrapped command exactly when its lock-table attempt is granted. */
  lemma {:induction false} RequestFollowsLock(s: LockStore.Store, qs: seq<Request>, lockUrl: string -> string,
                                             markdownLink: Pull -> Result<string>, i: nat)
    requires i < |qs|
    ensures var ran := RunRequests(s, qs, lockUrl, markdownLink).1[i].calls != [];
      ran <==> LockStore.RunLocks(s, LocksOf(qs)).1[i].Acquired?
    decreases i
  {
    var a := Step(s, qs[0], lockUrl, markdownLink);
    var rest := RunRequests(a.0, qs[1..], lockUrl, markdownLink);
    var ls := LocksOf(qs);
    LockStore.RunLocksFirst(s, ls);
    assert RunRequests(s, qs, lockUrl, markdownLink).1 == [a.1] + rest.1;
    if i > 0 {
      assert ls[1..] == LocksOf(qs[1..]);
      RequestFollowsLock(a.0, qs[1..], lockUrl, markdownLink, i - 1);
    }
  }

  /**
   Single ownership seen from the runners: in any interleaving of plans and
   policy checks on one table, a request on key k runs its wrapped command
   exactly when its pull is k's owner, the prior owner or else the first pull
   that asked for k.
   */
  lemma RequestRunsIffOwner(s: LockStore.Store, qs: seq<Request>, lockUrl: string -> string,
                            markdownLink: Pull -> Result<string>, i: nat)
    requires i < |qs|
    ensures var k := LockKeyOf(qs[i].ctx);
      var ran := RunRequests(s, qs, lockUrl, markdownLink).1[i].calls != [];
      LockStore.Owner(s, LocksOf(qs), k).Some?
      && (ran <==> qs[i].ctx.pull == LockStore.Owner(s, LocksOf(qs), k).value)
  {
    RequestFollowsLock(s, qs, lockUrl, markdownLink, i);
    LockStore.OutcomesFollowOwner(s, LocksOf(qs), LockKeyOf(qs[i].ctx), i);
  }

  /**
   After any interleaving of plans and policy checks on one table, each key is
   held by its prior owner or else by the first pull that asked for it.
   */
  lemma RequestsFinalOwner(s: LockStore.Store, qs: seq<Request>, lockUrl: string -> string,
                           markdownLink: Pull -> Result<string>, k: LockStore.LockKey)
    ensures var f := RunRequests(s, qs, lockUrl, markdownLink).0;
      (k in f <==> LockStore.Owner(s, LocksOf(qs), k).Some?)
      && (k in f ==> f[k].pull == LockStore.Owner(s, LocksOf(qs), k).value)
  {
    RequestsFollowLocksStore(s, qs, lockUrl, markdownLink);
    LockStore.FinalOwner(s, LocksOf(qs), k);
  }

  /** The working-directory key an apply claims. */
  function DirKeyOf(ctx: Context): WorkingDirLocker.DirKey {
    WorkingDirLocker.DirKey(ctx.pull.baseRepo, ctx.pull.num, ctx.workspace)
  }

  /**
   Apply with the in-memory working-directory locker. The wrapped apply runs
   exactly when the checkout is not already claimed; the claim is released on
   every path, so the claim set afterwards is the one before.
   */
  function Apply(c: WorkingDirLocker.Claims, ctx: Context, inner: InnerRunner): (r: (WorkingDirLocker.Claims, Run))
    ensures r.0 == c
    ensures r.1.calls == [CalledApply(ctx)] <==> DirKeyOf(ctx) !in c
    ensures DirKeyOf(ctx) !in c ==> r.1.result == inner.apply(ctx)
    ensures DirKeyOf(ctx) in c ==>
      && r.1.calls == []
      && r.1.result.error == Some(WorkspaceLocked(ctx.pull.baseRepo, ctx.pull.num, ctx.workspace))
      && r.1.result.applySuccess == ""
      && r.1.result == Rejected(ctx, ApplyCommand, "", Some(WorkspaceLocked(ctx.pull.baseRepo, ctx.pull.num, ctx.workspace)))
  {
    var claim := WorkingDirLocker.TryLock(c, ctx.pull.baseRepo, ctx.pull.num, ctx.workspace);
    var run := ApplyWith(ctx, claim.error, inner);
    var after := if claim.error.None? then WorkingDirLocker.Release(claim.claims, DirKeyOf(ctx)) else claim.claims;
    (after, run)
  }
}

=== FILE: project_locker.dfy ===
/**
 The project locker: turns a lock attempt on the project lock table into a
 grant carrying the lock's id, or a refusal carrying the conflict message
 that names the blocking pull by its markdown link. The link comes from the
 VCS client, modelled here as a function parameter that may fail.
 */
module ProjectLocker {
  import opened Types
  import LockStore

  const Head := "This project is currently locked by an unapplied plan from pull "
  const Middle := ". To continue, delete the lock from "
  const Tail := " or apply that plan and merge the pull request.\n\nOnce the lock is released, comment `atlantis plan` here to re-plan."

  /** Fixed text around two copies of x: head, x, middle, x, tail. */
  function Framed(head: string, x: string, middle: string, tail: string): (m: string)
    ensures |m| == |head| + |middle| + |tail| + 2 * |x|
    ensures m[..|head|] == head
    ensures m[|head|..|head| + |x|] == x
    ensures m[|head| + |x|..|head| + |x| + |middle|] == middle
    ensures m[|head| + |x| + |middle|..|head| + 2 * |x| + |middle|] == x
    ensures m[|m| - |tail|..] == tail
  {
    head + x + middle + x + tail
  }

  /**
   Reads x back out of Framed(head, x, middle, tail): the fixed parts' lengths
   determine where x sits and how long it is; None when m has any other shape.
   */
  function Unframe(head: string, middle: string, tail: string, m: string): (r: Option<string>)
    ensures r.Some? ==> Framed(head, r.value, middle, tail) == m
  {
    var fixed := |head| + |middle| + |tail|;
    if |m| < fixed || (|m| - fixed) % 2 != 0 then None
    else
      var x := m[|head|..|head| + (|m| - fixed) / 2];
      if Framed(head, x, middle, tail) == m then Some(x) else None
  }

  lemma UnframeFramed(head: string, x: string, middle: string, tail: string)
    ensures Unframe(head, middle, tail, Framed(head, x, middle, tail)) == Some(x)
  {
    var m := Framed(head, x, middle, tail);
    var fixed := |head| + |middle| + |tail|;
    assert |m| - fixed == 2 * |x|;
    assert m[|head|..|head| + |x|] == x;
  }

  /** The conflict message shown when `link` names the pull that holds the lock. */
  function FailureMessage(link: string): (m: string)
    ensures |m| == |Head| + |Middle| + |Tail| + 2 * |link|
    ensures m[..|Head|] == Head
    ensures m[|Head|..|Head| + |link|] == link
    ensures m[|Head| + |link|..|Head| + |link| + |Middle|] == Middle
    ensures m[|Head| + |link| + |Middle|..|Head| + 2 * |link| + |Middle|] == link
    ensures m[|m| - |Tail|..] == Tail
  {
    Framed(Head, link, Middle, Tail)
  }

  /** Reads the blocking pull's link back out of a conflict message; None for any other text. */
  function LinkOf(m: string): (r: Option<string>)
    ensures r.Some? ==> FailureMessage(r.value) == m
  {
    Unframe(Head, Middle, Tail, m)
  }

  /** Every conflict message names exactly the link it was built from. */
  lemma LinkOfFailureMessage(link: string)
    ensures LinkOf(FailureMessage(link)) == Some(link)
  {
    UnframeFramed(Head, link, Middle, Tail);
  }

  /** Different blocking pulls yield different messages. */
  lemma FailureMessageInjective(a: string, b: string)
    requires FailureMessage(a) == FailureMessage(b)
    ensures a == b
  {
    LinkOfFailureMessage(a);
    LinkOfFailureMessage(b);
  }

  /** The lock's id: the deterministic text form of its key. */
  function LockId(k: LockStore.LockKey): string {
    k.repoFullName + "/" + k.path + "/" + k.workspace
  }

  /** A grant carries the lock's id; a refusal carries the conflict message. */
  datatype Response = Granted(lockKey: string) | Refused(reason: string)

  datatype LockAttempt = LockAttempt(store: LockStore.Store, response: Result<Response>)

  /**
   Locks (project, workspace) for pull on behalf of user. A refusal looks up
   the blocking pull's markdown link; when that lookup fails its error is
   returned instead of a response.
   */
  function TryLock(s: LockStore.Store, pull: Pull, user: User, workspace: string, project: Project,
                   markdownLink: Pull -> Result<string>): (r: LockAttempt)
    ensures var k := LockStore.LockKey(project.repoFullName, project.path, workspace);
      && (r.response == Ok(Granted(LockId(k))) <==> k !in s || s[k].pull == pull)
      && (r.response == Ok(Granted(LockId(k))) ==> LockStore.HeldBy(r.store, k, pull) && r.store[k].user == user)
      && (r.response == Ok(Granted(LockId(k))) ==> r.store == s[k := Lock(project, workspace, pull, user)])
      && (r.response.Ok? && r.response.value.Granted? ==> r.response.value.lockKey == LockId(k))
      && (r.response != Ok(Granted(LockId(k))) ==> r.store == s && k in s && s[k].pull != pull)
      && (r.response.Ok? && r.response.value.Refused? ==>
            markdownLink(s[k].pull).Ok? && LinkOf(r.response.value.reason) == Some(markdownLink(s[k].pull).value))
      && (r.response.Err? ==> markdownLink(s[k].pull) == Err(r.response.error))
  {
    var a := LockStore.TryLock(s, Lock(project, workspace, pull, user));
    match a.outcome
    case Acquired(k) => LockAttempt(a.store, Ok(Granted(LockId(k))))
    case Denied(current) =>
      match markdownLink(current.pull)
      case Err(e) => LockAttempt(a.store, Err(e))
      case Ok(link) =>
        LinkOfFailureMessage(link);
        LockAttempt(a.store, Ok(Refused(FailureMessage(link))))
  }
}

=== FILE: scenarios.dfy ===
/**
 The behaviours pinned by the locking runner's tests, stated over the model:
 lock-URL decoration with a fixed lock key, two pulls racing for one project
 on a shared lock table, and apply refused by the working-directory locker.
 */
module Scenarios {
  import opened Types
  import LockStore
  import ProjectLocker
  import LockUrl
  import LockingRunner

  /** The conflict message the tests expect when the blocking pull's link is "other PR". */
  const OtherPrMessage := "This project is currently locked by an unapplied plan from pull other PR. To continue, delete the lock from other PR or apply that plan and merge the pull request.\n\nOnce the lock is released, comment `atlantis plan` here to re-plan."

  // The verifier compares string literals only a dozen or so characters at a
  // time, so the expected message is matched against FailureMessage in short
  // steps. The fixed parts of the message are cut into chunks, and each step
  // below appends one chunk to a literal prefix.
  const MiddleChunk1 := ". To continue,"
  const MiddleChunk2 := " delete the lock"
  const MiddleChunk3 := " from "
  const MiddleUpTo2 := ". To continue, delete the lock"
  const TailChunk1 := " or apply that"
  const TailChunk2 := " plan and merge"
  const TailChunk3 := " the pull"
  const TailChunk4 := " request.\n\nOnce"
  const TailChunk5 := " the lock is"
  const TailChunk6 := " released,"
  const TailChunk7 := " comment"
  const TailChunk8 := " `atlantis plan`"
  const TailChunk9 := " here to"
  const TailChunk10 := " re-plan."
  const TailUpTo2 := " or apply that plan and merge"
  const TailUpTo3 := " or apply that plan and merge the pull"
  const TailUpTo4 := " or apply that plan and merge the pull request.\n\nOnce"
  const TailUpTo5 := " or apply that plan and merge the pull request.\n\nOnce the lock is"
  const TailUpTo6 := " or apply that plan and merge the pull request.\n\nOnce the lock is released,"
  const TailUpTo7 := " or apply that plan and merge the pull request.\n\nOnce the lock is released, comment"
  const TailUpTo8 := " or apply that plan and merge the pull request.\n\nOnce the lock is released, comment `atlantis plan`"
  const TailUpTo9 := " or apply that plan and merge the pull request.\n\nOnce the lock is released, comment `atlantis plan` here to"

  lemma MiddleStep2() ensures MiddleChunk1 + MiddleChunk2 == MiddleUpTo2 {}
  lemma MiddleStep3() ensures MiddleUpTo2 + MiddleChunk3 == ProjectLocker.Middle {}
  lemma TailStep2() ensures TailChunk1 + TailChunk2 == TailUpTo2 {}
  lemma TailStep3() ensures TailUpTo2 + TailChunk3 == TailUpTo3 {}
  lemma TailStep4() ensures TailUpTo3 + TailChunk4 == TailUpTo4 {}
  lemma TailStep5() ensures TailUpTo4 + TailChunk5 == TailUpTo5 {}
  lemma TailStep6() ensures TailUpTo5 + TailChunk6 == TailUpTo6 {}
  lemma TailStep7() ensures TailUpTo6 + TailChunk7 == TailUpTo7 {}
  lemma TailStep8() ensures TailUpTo7 + TailChunk8 == TailUpTo8 {}
  lemma TailStep9() ensures TailUpTo8 + TailChunk9 == TailUpTo9 {}
  lemma TailStep10() ensures TailUpTo9 + TailChunk10 == ProjectLocker.Tail {}

  /** Appending the middle of the message is appending its chunks one by one. */
  lemma {:induction false} AppendMiddle(p: string)
    ensures p + ProjectLocker.Middle == p + MiddleChunk1 + MiddleChunk2 + MiddleChunk3
  {
    MiddleStep2(); MiddleStep3();
    AppendAssoc(p, MiddleUpTo2, MiddleChunk3);
    AppendAssoc(p, MiddleChunk1, MiddleChunk2);
  }

  /** Appending the tail of the message is appending its chunks one by one. */
  lemma {:induction false} AppendTail(p: string)
    ensures p + ProjectLocker.Tail == p + TailChunk1 + TailChunk2 + TailChunk3 + TailChunk4 + TailChunk5 + TailChunk6 + TailChunk7 + TailChunk8 + TailChunk9 + TailChunk10
  {
    TailStep2(); TailStep3(); TailStep4(); TailStep5(); TailStep6(); TailStep7(); TailStep8(); TailStep9(); TailStep10();
    AppendAssoc(p, TailUpTo9, TailChunk10);
    AppendAssoc(p, TailUpTo8, TailChunk9);
    AppendAssoc(p, TailUpTo7, TailChunk8);
    AppendAssoc(p, TailUpTo6, TailChunk7);
    AppendAssoc(p, TailUpTo5, TailChunk6);
    AppendAssoc(p, TailUpTo4, TailChunk5);
    AppendAssoc(p, TailUpTo3, TailChunk4);
    AppendAssoc(p, TailUpTo2, TailChunk3);
    AppendAssoc(p, TailChunk1, TailChunk2);
  }

  const MessageUpTo1 := "This project is currently locked by an unapplied plan from pull other PR"
  const MessageUpTo2 := "This project is currently locked by an unapplied plan from pull other PR. To continue,"
  const MessageUpTo3 := "This project is currently locked by an unapplied plan from pull other PR. To continue, delete the lock"
  const MessageUpTo4 := "This project is currently locked by an unapplied plan from pull other PR. To continue, delete the lock from "
  const MessageUpTo5 := "This project is currently locked by an unapplied plan from pull other PR. To continue, delete the lock from other PR"
  const MessageUpTo6 := "This project is currently locked by an unapplied plan from pull other PR. To continue, delete the lock from other PR or apply that"
  const MessageUpTo7 := "This project is currently locked by an unapplied plan from pull other PR. To continue, delete the lock from other PR or apply that plan and merge"
  const MessageUpTo8 := "This project is currently locked by an unapplied plan from pull other PR. To continue, delete the lock from other PR or apply that plan and merge the pull"
  const MessageUpTo9 := "This project is currently locked by an unapplied plan from pull other PR. To continue, delete the lock from other PR or apply that plan and merge the pull request.\n\nOnce"
  const MessageUpTo10 := "This project is currently locked by an unapplied plan from pull other PR. To continue, delete the lock from other PR or apply that plan and merge the pull request.\n\nOnce the lock is"
  const MessageUpTo11 := "This project is currently locked by an unapplied plan from pull other PR. To continue, delete the lock from other PR or apply that plan and merge the pull request.\n\nOnce the lock is released,"
  const MessageUpTo12 := "This project is currently locked by an unapplied plan from pull other PR. To continue, delete the lock from other PR or apply that plan and merge the pull request.\n\nOnce the lock is released, comment"
  const MessageUpTo13 := "This project is currently locked by an unapplied plan from pull other PR. To continue, delete the lock from other PR or apply that plan and merge the pull request.\n\nOnce the lock is released, comment `atlantis plan`"
  const MessageUpTo14 := "This project is currently locked by an unapplied plan from pull other PR. To continue, delete the lock from other PR or apply that plan and merge the pull request.\n\nOnce the lock is released, comment `atlantis plan` here to"

  lemma MessageStep1() ensures ProjectLocker.Head + "other PR" == MessageUpTo1 {}
  lemma MessageStep2() ensures MessageUpTo1 + MiddleChunk1 == MessageUpTo2 {}
  lemma MessageStep3() ensures MessageUpTo2 + MiddleChunk2 == MessageUpTo3 {}
  lemma MessageStep4() ensures MessageUpTo3 + MiddleChunk3 == MessageUpTo4 {}
  lemma MessageStep5() ensures MessageUpTo4 + "other PR" == MessageUpTo5 {}
  lemma MessageStep6() ensures MessageUpTo5 + TailChunk1 == MessageUpTo6 {}
  lemma MessageStep7() ensures MessageUpTo6 + TailChunk2 == MessageUpTo7 {}
  lemma MessageStep8() ensures MessageUpTo7 + TailChunk3 == MessageUpTo8 {}
  lemma MessageStep9() ensures MessageUpTo8 + TailChunk4 == MessageUpTo9 {}
  lemma MessageStep10() ensures MessageUpTo9 + TailChunk5 == MessageUpTo10 {}
  lemma MessageStep11() ensures MessageUpTo10 + TailChunk6 == MessageUpTo11 {}
  lemma MessageStep12() ensures MessageUpTo11 + TailChunk7 == MessageUpTo12 {}
  lemma MessageStep13() ensures MessageUpTo12 + TailChunk8 == MessageUpTo13 {}
  lemma MessageStep14() ensures MessageUpTo13 + TailChunk9 == MessageUpTo14 {}
  lemma MessageStep15() ensures MessageUpTo14 + TailChunk10 == OtherPrMessage {}

  lemma AppendAssoc(a: string, b: string, c: string)
    ensures a + (b + c) == (a + b) + c
  {
  }

  lemma {:induction false} MiddleJoined()
    ensures MessageUpTo1 + ProjectLocker.Middle == MessageUpTo4
  {
    AppendMiddle(MessageUpTo1);
    MessageStep2(); MessageStep3(); MessageStep4();
  }

  lemma {:induction false} TailJoined()
    ensures MessageUpTo5 + ProjectLocker.Tail == OtherPrMessage
  {
    AppendTail(MessageUpTo5);
    MessageStep6(); MessageStep7(); MessageStep8(); MessageStep9(); MessageStep10();
    MessageStep11(); MessageStep12(); MessageStep13(); MessageStep14(); MessageStep15();
  }

  /** The blocking-pull descriptor has one exact rendering, with the link in both places. */
  lemma {:induction false} OtherPrMessageExact()
    ensures ProjectLocker.FailureMessage("other PR") == OtherPrMessage
  {
    MessageStep1();
    MiddleJoined();
    MessageStep5();
    TailJoined();
  }

  /** Reading the expected message back yields the blocking pull's link. */
  lemma OtherPrMessageNamesLink()
    ensures ProjectLocker.LinkOf(OtherPrMessage) == Some("other PR")
  {
    OtherPrMessageExact();
    ProjectLocker.LinkOfFailureMessage("other PR");
  }

  /** A granted lock with key "lock-key" makes plan report "https://lock-key" as its lock URL. */
  lemma PlanGeneratesLockKeyUrl(ctx: LockingRunner.Context, inner: LockingRunner.InnerRunner)
    requires inner.plan(ctx).planSuccess.Some?
    ensures var r := LockingRunner.PlanWith(ctx, Ok(ProjectLocker.Granted("lock-key")), inner, LockUrl.GenerateLockUrl);
      r.result.planSuccess.Some? && r.result.planSuccess.value.lockUrl == "https://lock-key"
  {
  }

  /** The same decoration for a policy check whose wrapped runner returns a plan payload. */
  lemma PolicyCheckGeneratesLockKeyUrl(ctx: LockingRunner.Context, inner: LockingRunner.InnerRunner)
    requires inner.policyCheck(ctx).planSuccess.Some?
    ensures var r := LockingRunner.PolicyCheckWith(ctx, Ok(ProjectLocker.Granted("lock-key")), inner, LockUrl.GenerateLockUrl);
      r.result.planSuccess.Some? && r.result.planSuccess.value.lockUrl == "https://lock-key"
  {
  }

  const ThisCtx := LockingRunner.Context(Pull("locking-repo", 1), User(""), "default", ".", "")
  const ThatCtx := LockingRunner.Context(Pull("locking-repo", 2), User(""), "default", ".", "")

  /** The VCS client of the tests: every pull renders as "other PR". */
  function OtherPrLink(p: Pull): Result<string> {
    Ok("other PR")
  }

  /**
   Pull #1 plans ("locking-repo", ".", "default") on an empty lock table and
   succeeds, running the wrapped plan once. Pull #2 then plans the same
   project with another wrapped runner but the same table: it is refused
   with the exact conflict message, gets no plan payload, and its wrapped
   plan never runs.
   */
  lemma PreventPlanningOnLockedProjects(inner1: LockingRunner.InnerRunner, inner2: LockingRunner.InnerRunner)
    requires inner1.plan(ThisCtx).planSuccess.Some?
    ensures var (s1, r1) := LockingRunner.Plan(map[], ThisCtx, inner1, LockUrl.GenerateLockUrl, OtherPrLink);
      && r1.result.planSuccess.Some?
      && r1.calls == [LockingRunner.CalledPlan(ThisCtx)]
      && var (s2, r2) := LockingRunner.Plan(s1, ThatCtx, inner2, LockUrl.GenerateLockUrl, OtherPrLink);
      && r2.result.planSuccess.None?
      && r2.calls == []
      && r2.result.failure == OtherPrMessage
      && s2 == s1
  {
    OtherPrMessageExact();
    var (s1, r1) := LockingRunner.Plan(map[], ThisCtx, inner1, LockUrl.GenerateLockUrl, OtherPrLink);
    var (s2, r2) := LockingRunner.Plan(s1, ThatCtx, inner2, LockUrl.GenerateLockUrl, OtherPrLink);
    assert ProjectLocker.LinkOf(r2.result.failure) == Some("other PR");
    ProjectLocker.LinkOfFailureMessage("other PR");
  }

  /** The policy-check version of the same race. */
  lemma PreventPolicyCheckingOnLockedProjects(inner1: LockingRunner.InnerRunner, inner2: LockingRunner.InnerRunner)
    requires inner1.policyCheck(ThisCtx).policyCheckSuccess.Some?
    ensures var (s1, r1) := LockingRunner.PolicyCheck(map[], ThisCtx, inner1, LockUrl.GenerateLockUrl, OtherPrLink);
      && r1.result.policyCheckSuccess.Some?
      && r1.calls == [LockingRunner.CalledPolicyCheck(ThisCtx)]
      && var (s2, r2) := LockingRunner.PolicyCheck(s1, ThatCtx, inner2, LockUrl.GenerateLockUrl, OtherPrLink);
      && r2.result.policyCheckSuccess.None?
      && r2.calls == []
      && r2.result.failure == OtherPrMessage
      && s2 == s1
  {
    OtherPrMessageExact();
    var (s1, r1) := LockingRunner.PolicyCheck(map[], ThisCtx, inner1, LockUrl.GenerateLockUrl, OtherPrLink);
    var (s2, r2) := LockingRunner.PolicyCheck(s1, ThatCtx, inner2, LockUrl.GenerateLockUrl, OtherPrLink);
    assert ProjectLocker.LinkOf(r2.result.failure) == Some("other PR");
  }

  /** A working-directory locker that refuses with "workspace dir is locked" makes apply return that error and nothing else. */
  lemma ApplyWorkingDirLocked(ctx: LockingRunner.Context, inner: LockingRunner.InnerRunner)
    ensures var r := LockingRunner.ApplyWith(ctx, Some(Message("workspace dir is locked")), inner);
      && r.result.error == Some(Message("workspace dir is locked"))
      && r.result.applySuccess == ""
      && r.calls == []
  {
  }
}

=== FILE: types.dfy ===
/**
 The records shared by the locking layer: pull requests, users, projects,
 lock records, and the small Option/Result wrappers used for the error paths.
 */
module Types {

  datatype Option<+T> = None | Some(value: T)

  /** An error surfaced by the locking layer or by one of its collaborators. */
  datatype Error =
    | Message(text: string)
      /** The working-directory claim for (repo, pull number, workspace) is already held. */
    | WorkspaceLocked(repoFullName: string, pullNum: int, workspace: string)

  datatype Result<+T> = Ok(value: T) | Err(error: Error)

  /** Identity of a pull request: the base repository's full name and its number. */
  datatype Pull = Pull(baseRepo: string, num: int)

  /** The actor who triggered a command. */
  datatype User = User(username: string)

  /** A repository plus a directory relative to its root. */
  datatype Project = Project(repoFullName: string, path: string)

  /** A persisted project lock: which pull, on whose behalf, owns (project, workspace). */
  datatype Lock = Lock(project: Project, workspace: string, pull: Pull, user: User)
}

=== FILE: working_dir_locker.dfy ===
/**
 The in-memory working-directory locker: at most one running command may hold
 the checkout of a given (repository, pull number, workspace) at a time. A
 denied claim fails at once; nothing waits in a queue.
 */
module WorkingDirLocker {
  import opened Types

  datatype DirKey = DirKey(repoFullName: string, pullNum: int, workspace: string)

  /** The keys currently claimed. */
  type Claims = set<DirKey>

  /** New claim set and the attempt's error, None when the claim was granted. */
  datatype Claim = Claim(claims: Claims, error: Option<Error>)

  function TryLock(c: Claims, repoFullName: string, pullNum: int, workspace: string): (r: Claim)
    ensures var key := DirKey(repoFullName, pullNum, workspace);
      && (r.error.None? <==> key !in c)
      && key in r.claims
      && r.claims - {key} == c - {key}
      && (r.error.Some? ==> r.claims == c && r.error.value == WorkspaceLocked(repoFullName, pullNum, workspace))
  {
    var key := DirKey(repoFullName, pullNum, workspace);
    if key in c then Claim(c, Some(WorkspaceLocked(repoFullName, pullNum, workspace)))
    else Claim(c + {key}, None)
  }

  /** The release function handed out with a granted claim. */
  function Release(c: Claims, key: DirKey): (r: Claims)
    ensures key !in r
    ensures forall k | k != key :: k in r <==> k in c
  {
    c - {key}
  }

  /** Acquiring a free key and then releasing it restores the claim set. */
  lemma ReleaseUndoesClaim(c: Claims, repoFullName: string, pullNum: int, workspace: string)
    requires DirKey(repoFullName, pullNum, workspace) !in c
    ensures Release(TryLock(c, repoFullName, pullNum, workspace).claims, DirKey(repoFullName, pullNum, workspace)) == c
  {
  }

  datatype DirOp = Acquire(key: DirKey) | ReleaseOp(key: DirKey)

  /**
   Runs a sequence of claims and releases. The log has one entry per
   operation: whether the claim was granted for a claim, None for a release.
   */
  function RunDirOps(c: Claims, ops: seq<DirOp>): (r: (Claims, seq<Option<bool>>))
    ensures |r.1| == |ops|
    ensures forall i | 0 <= i < |ops| :: r.1[i].Some? <==> ops[i].Acquire?
    decreases |ops|
  {
    if ops == [] then (c, [])
    else
      match ops[0]
      case Acquire(k) =>
        var t := TryLock(c, k.repoFullName, k.pullNum, k.workspace);
        var rest := RunDirOps(t.claims, ops[1..]);
        assert forall i | 1 <= i < |ops| :: ops[i] == ops[1..][i - 1];
        (rest.0, [Some(t.error.None?)] + rest.1)
      case ReleaseOp(k) =>
        var rest := RunDirOps(Release(c, k), ops[1..]);
        assert forall i | 1 <= i < |ops| :: ops[i] == ops[1..][i - 1];
        (rest.0, [None] + rest.1)
  }

  /** The claim set after the first operation of a run. */
  function StepClaims(c: Claims, op: DirOp): Claims {
    match op
    case Acquire(k) => TryLock(c, k.repoFullName, k.pullNum, k.workspace).claims
    case ReleaseOp(k) => Release(c, k)
  }

  lemma RunDirOpsStep(c: Claims, ops: seq<DirOp>)
    requires |ops| > 0
    ensures RunDirOps(c, ops).0 == RunDirOps(StepClaims(c, ops[0]), ops[1..]).0
    ensures RunDirOps(c, ops).1[1..] == RunDirOps(StepClaims(c, ops[0]), ops[1..]).1
  {
  }

  /** A claimed key that nobody releases stays claimed through any run. */
  lemma {:induction false} ClaimedKeyStays(c: Claims, ops: seq<DirOp>, key: DirKey)
    requires key in c
    requires forall j | 0 <= j < |ops| :: ops[j] != ReleaseOp(key)
    ensures key in RunDirOps(c, ops).0
    decreases |ops|
  {
    if ops != [] {
      RunDirOpsStep(c, ops);
      assert forall j | 0 <= j < |ops[1..]| :: ops[1..][j] == ops[j + 1];
      ClaimedKeyStays(StepClaims(c, ops[0]), ops[1..], key);
    }
  }

  /**
   Exclusivity: while a key stays claimed and nobody releases it, every
   further claim on it is refused.
   */
  lemma {:induction false} ClaimedKeyExcludes(c: Claims, ops: seq<DirOp>, key: DirKey, i: nat)
    requires key in c
    requires forall j | 0 <= j < |ops| :: ops[j] != ReleaseOp(key)
    requires i < |ops| && ops[i] == Acquire(key)
    ensures RunDirOps(c, ops).1[i] == Some(false)
    decreases i
  {
    if i > 0 {
      RunDirOpsStep(c, ops);
      assert forall j | 0 <= j < |ops[1..]| :: ops[1..][j] == ops[j + 1];
      ClaimedKeyExcludes(StepClaims(c, ops[0]), ops[1..], key, i - 1);
      assert RunDirOps(c, ops).1[i] == RunDirOps(c, ops).1[1..][i - 1];
    }
  }
}
